=== FILE: README.md ===
# Stock dashboard data path, in Dafny

This project models the deterministic data path of a Streamlit stock dashboard
(`app.py`). The dashboard does four things with the data:

- It fetches daily, weekly or monthly bars from the Alpha Vantage time-series API.
- It shows three headline figures: current price, 52-week high and 52-week low.
- It adds the enabled technical indicators: moving averages, RSI, MACD and its signal line.
- It hands the history to a forecasting model (Prophet) and shows the trailing forecast window with a small metrics table.

Modules follow the script's structure:

| module | file | what it holds |
|---|---|---|
| `Wrappers` | wrappers.dfy | `Option` and `Result` |
| `Stats` | stats.dfy | sum, mean, max and min of a real series, with their bounds |
| `SeriesStore` | series_store.dfy | the decoded provider payload, its rejection rules, the inclusive date filter with ascending order, the interval dispatch, and the swallow-to-empty behaviour of `fetch_stock_data` |
| `Headline` | headline.dfy | the overview-or-fallback headline figures |
| `Rolling` | rolling.dfy | pandas `rolling(window=w).mean()` with `min_periods = w` |
| `Indicators` | indicators.dfy | MA20/MA50, RSI from 14-period simple means, recursive EMAs (`adjust=False`), MACD and signal line, and the per-flag indicator block |
| `Forecast` | forecast.dfy | the frame handed to the model, the 60-row gate, the volume regressor held at its last value, the trailing display window and the metrics table, with the code as written next to the corrected version |
| `Dashboard` | dashboard.dfy | one press of "Analyze", composing the stages above |

Representation choices:

- Dates are ordinal integers. The filter bounds are integers (timestamps) in the corrected fetch; `SeriesStore.Bound` tells a calendar day from a timestamp where the code as written depends on it.
- Prices and volumes are exact `real`s.
- pandas NaN becomes `None`. In RSI, `0/0` (no gains and no losses in the window) gives NaN and becomes `None`; gains with no losses give `rs = +inf` and RSI 100.
- The provider payload is a `map<string, Value>`. A `Value` is either text (the error message) or a table of bars keyed by date.
- The forecasting model is a pair of function parameters:
  - `makeFuture` for `make_future_dataframe`;
  - `predict` for `predict` after `fit`.

Behaviour of `app.py` that the model keeps:

- Each fetch is one request, with no retry and no fallback date window.
- The long moving average uses a 50-row window (app.py:281).
- An empty window after filtering is returned by `get_*_data` as an empty frame, not as an error (app.py:99-100). It becomes the "no data" message only in the Analyze handler (app.py:259).

## Model

| member | source | states |
|---|---|---|
| SeriesStore.SeriesKey | app.py:168-175 | only "1d", "1wk" and "1mo" select a series key, and no series key is the error key |
| SeriesStore.Window | app.py:99-100 | the rows are exactly the bars dated in [start, end], each with its own bar, in strictly ascending date order, with no in-window bar dropped |
| SeriesStore.WindowUnique | app.py:99-100 | any two sequences that are the window of the same bars and bounds are equal, so the window property pins the result down completely |
| SeriesStore.Normalise | app.py:91-100 | an "Error Message" key fails with its text; otherwise a missing series key fails with no-data; the call succeeds exactly when the payload is well formed, and the result is then the sorted inclusive window |
| SeriesStore.Load | app.py:166-175 | an interval outside the three fails as invalid; the call succeeds exactly for a known interval with a well-formed payload, returning that series' window |
| SeriesStore.Fetch | app.py:166-178 | every failure (bad interval, error key, missing or malformed series) becomes the empty series; otherwise the result is the window |
| SeriesStore.NormaliseAsWritten | app.py:91-100 | with the bounds as passed, the response checks fail as before; a well-formed payload then fails exactly when a bound is a calendar day, and succeeds with the window when both are timestamps |
| SeriesStore.FetchAsWritten | app.py:166-178 | with the bounds as passed, an unknown interval gives the empty series, and timestamp bounds over a well-formed payload give the window |
| SeriesStore.FetchAsWrittenEmptyForDays | app.py:99-100 | with the calendar days the date pickers return (app.py:240-241), the fetch as written is empty for every payload and interval |
| SeriesStore.FetchWithInstants | app.py:166-178 | with timestamp bounds the fetch as written equals the corrected fetch |
| Stats.Max | app.py:274 | the maximum bounds every element and is one of them |
| Stats.Min | app.py:277 | the minimum is a lower bound of every element and is one of them |
| Headline.HeadlineMetrics | app.py:270-277 | each figure is the overview value when the key is present; otherwise it is the last close, the largest High (bounding every High and attained) or the smallest Low |
| Rolling.RollingMean | app.py:280-281 | the output has the input's length, no value before a full window, then the mean of the trailing w elements |
| Rolling.RollingMeanWithin | app.py:280-281 | every rolling mean lies within any bounds of the series |
| Stats.MeanBounds | app.py:280-281 | a mean lies within any bounds of its elements |
| Indicators.MovingAverages | app.py:279-281 | MA20 and MA50 are the rolling means over 20 and 50 rows |
| Indicators.Delta | app.py:283 | `diff` has no value at the first row and the change from the previous close elsewhere |
| Indicators.Gains | app.py:284 | the gain column has the close's length, is 0 at the first row, and elsewhere is the rise from the previous close, or 0 when the close did not rise |
| Indicators.Losses | app.py:285 | the loss column has the close's length, is 0 at the first row, and elsewhere is the fall from the previous close, or 0 when the close did not fall |
| Indicators.GainLossSplit | app.py:284-285 | at each row at most one of gain and loss is non-zero; their difference is the price change; the first row counts as neither |
| Indicators.RsiOf | app.py:286-287 | RSI is undefined exactly when both averages are zero; otherwise it lies in [0, 100]; it is 100 with no losses and some gains, and 0 with no gains and some losses |
| Indicators.RsiShare | app.py:286-287 | where defined, `100 - 100/(1 + gain/loss)` equals the share of the gains in the total movement, 100·gain/(gain + loss) |
| Indicators.RsiAt | app.py:283-287 | the reference RSI has no value before row 13 and otherwise lies in [0, 100] |
| Indicators.RsiFromMeans | app.py:284-287 | at every row, combining the two rolling means gives the reference RSI |
| Indicators.Rsi | app.py:283-287 | the RSI column has the close's length and equals the reference RSI at every row |
| Indicators.RsiUndefinedWhenFlat | app.py:283-287 | from row 13 on, RSI has no value exactly when every close from row i-14 (or from row 0) to row i is the same |
| Indicators.Alpha | app.py:289-292 | the smoothing factor 2/(span+1) lies in (0, 1] for every span of at least 1 |
| Indicators.Ema | app.py:289-292 | the EMA has the input's length, starts at the first value and follows y_t = (1 - a)·y_(t-1) + a·x_t |
| Indicators.EmaUnique | app.py:289-292 | any sequence with that length, seed and recurrence is the EMA |
| Indicators.EmaClosedForm | app.py:289-292 | the EMA equals its unrolled closed form, (1 - a)^t·x_0 plus the sum of a·(1 - a)^(t-k)·x_k for k = 1..t |
| Indicators.EmaConstant | app.py:289-292 | the EMA of a constant series is that constant |
| Indicators.EmaWithin | app.py:289-292 | for a in (0, 1] the EMA never leaves the range of its input |
| Indicators.Macd | app.py:289-291 | MACD has the close's length and is, at every row, the 12-span EMA minus the 26-span EMA |
| Indicators.SignalLine | app.py:292 | the signal line has the close's length, starts at the first MACD value, and follows the 9-span EMA recurrence over MACD |
| Indicators.MacdFlat | app.py:289-292 | for a flat close, MACD and the signal line are zero at every row |
| Indicators.Enrich | app.py:279-292 | each column is present exactly when its checkbox is on; MA20/MA50 are the rolling means, RSI the reference RSI, and MACD and signal the EMA differences |
| Forecast.Find | app.py:382-383 | the lookup returns the first position carrying the label, or nothing exactly when no position does |
| Forecast.FrameAsWrittenHasNoTarget | app.py:381-383 | as written, no row of the frame has a target, because a RangeIndex label never matches a timestamp |
| Forecast.GateAsWrittenRefuses | app.py:381-388 | as written, the gate refuses every series with zero valid rows |
| Forecast.DropMissing | app.py:384 | `dropna` keeps exactly the rows with a target, in order: it keeps as many rows as have a target, and each such row lands at the position given by the number of rows with a target before it |
| Forecast.DropMissingUniform | app.py:384 | from a frame with no target `dropna` keeps nothing; from a frame whose targets are all present it keeps every row, in order |
| Forecast.Gate | app.py:384-388 | the gate passes exactly when at least 60 rows have a target, reports that count otherwise, and passes on the rows `dropna` keeps |
| Forecast.GateAccepts | app.py:381-388 | with the corrected frame the gate passes exactly when at least 60 bars were fetched, reports the count otherwise, and keeps each bar's (date, close) in order |
| Forecast.ContinueVolume | app.py:402-404 | the prediction frame has one row per date of `make_future_dataframe`, each with that date and the last bar's volume |
| Forecast.Tail | app.py:414-433 | `s[-k:]` holds the last k rows, or every row when there are fewer |
| Forecast.Summarise | app.py:445-451 | the metrics exist exactly when the output has at least k rows; start and end are the first and last dates of the trailing window; the price is the last yhat; the half-width is half the last interval |
| Forecast.SummaryAsWrittenMissing | app.py:448-451 | as written, the metrics table is never produced, because no row of a RangeIndex carries the label -1 |
| Forecast.RunForecast | app.py:379-451 | below 60 bars the forecast is refused with the count; every fit row carries its bar's date, close and volume; the prediction frame is `make_future_dataframe`'s dates with the last volume; the window is the last `forecast_days` rows of `predict`'s output and has exactly that many rows; the summary describes its ends |
| Forecast.ForecastSucceeds | app.py:379-451 | with at least 60 bars, and a model whose outputs have the promised lengths, the forecast succeeds |
| Dashboard.Analyze | app.py:255-292 | the "no data" message appears exactly when loading fails or the window is empty; otherwise the shown rows are the window, the headline figures are the overview values with their fallbacks (the current price falls back to the last close), each indicator column is present exactly when its checkbox is on and holds the rolling means, the reference RSI, or MACD and its signal line, and the forecasting tab is the forecast of the shown rows, refused exactly below 60 bars |

## Left out

- The Streamlit page is not modelled. That covers widgets, CSS, the `POPULAR_STOCKS` table, Plotly and pyplot rendering, and the error and info messages; they are presentation only. The slider bounds of `forecast_days` (1..30, app.py:253) become a precondition.
- `requests.get`, JSON decoding and `get_stock_info` / `fetch_stock_info` are network I/O. The decoded payload and the overview map are inputs, and the overview values arrive already converted to numbers.
- The `st.cache_data(ttl=3600)` memoisation (app.py:165) is not modelled: every call is computed afresh. In `app.py` the cache replays a result for the same arguments for an hour, including the empty frame that a swallowed failure returns (app.py:176-178), so a transient provider error keeps showing "no data" until the entry expires.
- `pd.to_datetime` and `astype(float)` are library parsing. Dates are integers and fields are reals.
  - A bar is a typed record, so a payload with unparseable fields cannot be expressed.
  - A series given as text is modelled as a malformed series.
- Series with duplicate dates cannot occur: the payload is keyed by date.
- IEEE-754 rounding is not modelled. That includes the residue of pandas' running rolling sums and the ewm accumulation; everything is exact real arithmetic.
- Prophet's configuration, `fit` and `plot_components` live in an external library. `make_future_dataframe` (including its daily frequency) and `predict` are function parameters with no behaviour beyond what callers assume.
- `'Volume' in data.columns` (app.py:397, 402) is always true after the rename at app.py:97, so the branch without the regressor is not modelled.
- Forecast.RunForecast models the corrected frame and the positional metrics (`Forecast.Summarise`). In the code as written, `df['volume'] = data['Volume']` (app.py:398) is label-aligned in the same way as `y` and would be all missing too. The model does not restate that, because the gate already refuses every series as written.
- Rolling.RollingMean: the input is a series with no missing values. That holds for closes after `astype(float)` and for the gain and loss series after `where`. NaN propagation inside a window is not modelled.
- The empty series is modelled as the empty sequence. The fallbacks at app.py:271-277 are only modelled for a non-empty series, which is the only case the dashboard reaches (app.py:259).
- SeriesStore.Normalise, SeriesStore.Load and SeriesStore.Fetch take integer (timestamp) bounds, the evidently intended call. `app.py` passes the `datetime.date` values of the date pickers (app.py:240-241); that path is `SeriesStore.FetchAsWritten`, listed under Findings.
- Dashboard.Analyze composes the corrected stages: timestamp bounds for the fetch, the positional frame for the forecast, and the positional metrics. As written, the fetch is empty for the date pickers' values, so the handler stops at "no data"; and were a series fetched, the forecast would always be refused (`Forecast.GateAsWrittenRefuses`).

## Findings

| source | as written | input that shows it | evidently intended | confidence | as-written member | corrected member |
|---|---|---|---|---|---|---|
| app.py:381-384 | `df['ds'] = data.index` gives the new frame a RangeIndex 0..n-1. `df['y'] = data['Close']` then aligns the date-indexed close on those labels, so every `y` is NaN and `dropna` leaves no rows. | any fetched series, e.g. 300 daily bars: the gate sees 0 valid rows and always prints "Not enough data points" | `y` paired positionally with `ds`, so a series of at least 60 bars is forecast | high; derived from pandas' label-alignment rule, not executed | Forecast.GateAsWrittenRefuses | Forecast.GateAccepts |
| app.py:99-100 | `df.index >= start_date` compares the datetime64 index with the `datetime.date` that `st.date_input` returns (app.py:240-241). pandas refuses to order a datetime64 index against a plain date and raises TypeError; `fetch_stock_data` swallows it into an empty frame (app.py:176-178). The same comparison is at app.py:118 and app.py:137. | any symbol and interval with the default date range, e.g. 250 daily bars: the comparison raises, the fetch returns an empty frame and the page shows "no data" | bounds converted to timestamps (`pd.Timestamp(start_date)`), so the filter keeps the bars in the range | medium; derived from pandas' comparison rule for datetime64 against `date` (pandas 2), not executed | SeriesStore.FetchAsWrittenEmptyForDays | SeriesStore.Fetch |
| app.py:448-451 | `forecast['ds'][-forecast_days]` and `forecast[...][-1]` on a RangeIndex Series are label lookups, so they raise KeyError and the metrics table is never shown | any model output, e.g. 307 rows with forecast_days = 7: label -1 does not exist | positional access (`iloc[-k]`, `iloc[-1]`) to the first and last rows of the trailing window | high; derived from pandas' integer-key rule on a RangeIndex, not executed | Forecast.SummaryAsWrittenMissing | Forecast.Summarise |

=== FILE: dashboard.dfy ===
/** The "Analyze" handler (app.py): fetch the series, stop with a "no data" message when
    it is empty, and otherwise show the headline figures, the enabled indicators and the
    forecasting tab, each computed from the fetched series alone. */
module Dashboard {
  import opened Wrappers
  import opened SeriesStore
  import opened Headline
  import opened Rolling
  import opened Indicators
  import opened Forecast

  /** What the handler shows: the "no data" message, or the three parts of the page. */
  datatype View =
    | NoDataFound
    | Shown(rows: seq<Row>, metrics: Metrics, columns: Columns, forecast: Result<Report, ForecastError>)

  /** One press of "Analyze". The payload, the overview and the forecasting model are inputs;
      the slider bounds the horizon to 1..30. */
  method Analyze(payload: Payload, interval: string, start: int, end: int,
                 overview: map<string, real>,
                 showMa: bool, showRsi: bool, showMacd: bool, horizon: nat,
                 makeFuture: (seq<FitRow>, nat) -> seq<int>,
                 predict: (seq<FitRow>, seq<FutureRow>) -> seq<Prediction>)
    returns (v: View)
    requires 1 <= horizon <= MaxHorizon
    ensures v.NoDataFound? <==> Load(payload, interval, start, end).Failure? || |Load(payload, interval, start, end).value| == 0
    ensures v.Shown? ==> |v.rows| > 0 && IsWindow(v.rows, payload[SeriesKey(interval).value].bars, start, end)
    ensures v.Shown? ==> v.metrics == HeadlineMetrics(overview, v.rows)
    ensures v.Shown? && PriceKey !in overview ==> v.metrics.currentPrice == v.rows[|v.rows| - 1].bar.close
    ensures v.Shown? ==>
              && (v.columns.ma20.Some? <==> showMa)
              && (v.columns.ma50.Some? <==> showMa)
              && (v.columns.rsi.Some? <==> showRsi)
              && (v.columns.macd.Some? <==> showMacd)
              && (v.columns.signal.Some? <==> showMacd)
    ensures v.Shown? && showMa ==>
              && IsRollingMean(v.columns.ma20.value, Closes(v.rows), ShortWindow)
              && IsRollingMean(v.columns.ma50.value, Closes(v.rows), LongWindow)
    ensures v.Shown? && showRsi ==>
              && |v.columns.rsi.value| == |v.rows|
              && forall i :: 0 <= i < |v.rows| ==> v.columns.rsi.value[i] == RsiAt(Closes(v.rows), i)
    ensures v.Shown? && showMacd ==>
              && v.columns.macd.value == Macd(Closes(v.rows))
              && v.columns.signal.value == SignalLine(Closes(v.rows))
    ensures v.Shown? ==> v.forecast == RunForecast(v.rows, horizon, makeFuture, predict)
    ensures v.Shown? ==> (|v.rows| < MinHistory <==> v.forecast == Failure(InsufficientData(|v.rows|)))
  {
    var rows := Fetch(payload, interval, start, end);
    if |rows| == 0 {
      return NoDataFound;
    }
    var metrics := HeadlineMetrics(overview, rows);
    var columns := Enrich(Closes(rows), showMa, showRsi, showMacd);
    var forecast := RunForecast(rows, horizon, makeFuture, predict);
    v := Shown(rows, metrics, columns, forecast);
  }
}

=== FILE: forecast.dfy ===
/** The forecast adapter (app.py, the "Forecasting" tab of the "Analyze" handler): the
    frame handed to the forecasting model, the 60-row gate, the volume regressor held at
    its last value over the prediction frame, and the trailing window and metrics shown
    from the model's output. The model itself (`make_future_dataframe`, `fit`, `predict`)
    is a pair of function parameters. */
module Forecast {
  import opened Wrappers
  import opened SeriesStore

  const MinHistory: nat := 60
  const MaxHorizon: nat := 30

  // ---------------------------------------------------------------- pandas labels

  /** A pandas index label: a position of a RangeIndex or a timestamp of a DatetimeIndex.
      The two never compare equal. */
  datatype Label = Position(k: int) | Stamp(date: int)

  /** A labelled column: `index[i]` labels `values[i]`. */
  datatype Column<T> = Column(index: seq<Label>, values: seq<T>)

  function RangeIndex(n: nat): (labels: seq<Label>)
    ensures |labels| == n
    ensures forall k :: 0 <= k < n ==> labels[k] == Position(k)
  {
    seq(n, k requires 0 <= k < n => Position(k))
  }

  /** Position of the first row labelled `key`. */
  function Find(index: seq<Label>, key: Label): (p: Option<nat>)
    ensures p.Some? ==> p.value < |index| && index[p.value] == key
    ensures p.Some? ==> forall j :: 0 <= j < p.value ==> index[j] != key
    ensures p.None? <==> forall j :: 0 <= j < |index| ==> index[j] != key
    decreases |index|
  {
    if |index| == 0 then None
    else if index[0] == key then Some(0)
    else match Find(index[1..], key)
      case None => None
      case Some(p) => Some(p + 1)
  }

  /** Label lookup, `column[key]` on a Series whose index is not positional: the value
      at the first row so labelled, or `None` where pandas raises KeyError (when the
      label is absent) or reindexing yields NaN. */
  function Loc<T>(c: Column<T>, key: Label): (v: Option<T>)
  {
    match Find(c.index, key)
    case Some(p) => if p < |c.values| then Some(c.values[p]) else None
    case None => None
  }

  // ---------------------------------------------------------------- frame and gate

  /** One row of the frame handed to the model, before `dropna`. */
  datatype FrameRow = FrameRow(ds: int, y: Option<real>)

  /** A row that survived `dropna`. */
  datatype Observation = Observation(ds: int, y: real)

  datatype ForecastError =
    | InsufficientData(valid: nat)   // fewer than 60 rows survived dropna
    | MissingRow                     // the model's output has no row for the requested position

  /** The close column of the fetched frame, indexed by timestamp. */
  function CloseByDate(rows: seq<Row>): (c: Column<real>)
    ensures |c.index| == |c.values| == |rows|
    ensures forall i :: 0 <= i < |rows| ==> c.index[i] == Stamp(rows[i].date) && c.values[i] == rows[i].bar.close
  {
    Column(seq(|rows|, i requires 0 <= i < |rows| => Stamp(rows[i].date)), Closes(rows))
  }

  /** The frame as the dashboard builds it: `ds` is assigned from the date index as plain
      values, so the frame gets a RangeIndex, and `y` is assigned from the date-indexed
      close column, which pandas aligns on labels. */
  function FrameAsWritten(rows: seq<Row>): (frame: seq<FrameRow>)
    ensures |frame| == |rows|
  {
    var labels := RangeIndex(|rows|);
    var close := CloseByDate(rows);
    seq(|rows|, k requires 0 <= k < |rows| => FrameRow(rows[k].date, Loc(close, labels[k])))
  }

  /** The frame as intended: every close paired with its own date. */
  function Frame(rows: seq<Row>): (frame: seq<FrameRow>)
    ensures |frame| == |rows|
  {
    seq(|rows|, k requires 0 <= k < |rows| => FrameRow(rows[k].date, Some(rows[k].bar.close)))
  }

  /** The number of rows whose target is present. */
  function CountPresent(frame: seq<FrameRow>): nat
    decreases |frame|
  {
    if |frame| == 0 then 0
    else CountPresent(frame[..|frame| - 1]) + (if frame[|frame| - 1].y.Some? then 1 else 0)
  }

  /** `df.dropna()`: the rows whose target is present, in order. Each row with a target
      lands at the position given by the number of such rows before it, and nothing else
      is kept. `DropMissingUniform` spells out the two uniform frames. */
  function DropMissing(frame: seq<FrameRow>): (obs: seq<Observation>)
    ensures |obs| == CountPresent(frame)
    ensures forall i :: 0 <= i < |frame| && frame[i].y.Some? ==>
              CountPresent(frame[..i]) < |obs| &&
              obs[CountPresent(frame[..i])] == Observation(frame[i].ds, frame[i].y.value)
    decreases |frame|
  {
    if |frame| == 0 then []
    else
      var n := |frame|;
      var init := frame[..n - 1];
      var kept := DropMissing(init);
      var obs := if frame[n - 1].y.Some? then kept + [Observation(frame[n - 1].ds, frame[n - 1].y.value)] else kept;
      DropMissingStep(frame, init, kept, obs);
      obs
  }

  /** Keeping the last row exactly when its target is present extends the filter of the
      earlier rows to the filter of the whole frame. */
  lemma DropMissingStep(frame: seq<FrameRow>, init: seq<FrameRow>, kept: seq<Observation>, obs: seq<Observation>)
    requires |frame| > 0 && init == frame[..|frame| - 1]
    requires |kept| == CountPresent(init)
    requires forall i :: 0 <= i < |init| && init[i].y.Some? ==>
               CountPresent(init[..i]) < |kept| &&
               kept[CountPresent(init[..i])] == Observation(init[i].ds, init[i].y.value)
    requires obs == if frame[|frame| - 1].y.Some? then kept + [Observation(frame[|frame| - 1].ds, frame[|frame| - 1].y.value)] else kept
    ensures |obs| == CountPresent(frame)
    ensures forall i :: 0 <= i < |frame| && frame[i].y.Some? ==>
              CountPresent(frame[..i]) < |obs| &&
              obs[CountPresent(frame[..i])] == Observation(frame[i].ds, frame[i].y.value)
  {
    forall i | 0 <= i < |frame| && frame[i].y.Some?
      ensures CountPresent(frame[..i]) < |obs| && obs[CountPresent(frame[..i])] == Observation(frame[i].ds, frame[i].y.value)
    {
      KeptAt(frame, init, kept, obs, i);
    }
  }

  /** One row of the step: an earlier row keeps its place, and the last row, when kept,
      lands after every earlier kept row. */
  lemma KeptAt(frame: seq<FrameRow>, init: seq<FrameRow>, kept: seq<Observation>, obs: seq<Observation>, i: nat)
    requires |frame| > 0 && init == frame[..|frame| - 1]
    requires |kept| == CountPresent(init)
    requires i < |init| && init[i].y.Some? ==>
               CountPresent(init[..i]) < |kept| &&
               kept[CountPresent(init[..i])] == Observation(init[i].ds, init[i].y.value)
    requires obs == if frame[|frame| - 1].y.Some? then kept + [Observation(frame[|frame| - 1].ds, frame[|frame| - 1].y.value)] else kept
    requires i < |frame| && frame[i].y.Some?
    ensures CountPresent(frame[..i]) < |obs| && obs[CountPresent(frame[..i])] == Observation(frame[i].ds, frame[i].y.value)
  {
    if i < |init| {
      assert init[..i] == frame[..i];
    } else {
      assert frame[..i] == init;
    }
  }

  /** `dropna` keeps nothing from a frame without targets, and every row, in order, from
      a frame whose targets are all present. */
  lemma DropMissingUniform(frame: seq<FrameRow>)
    ensures (forall i :: 0 <= i < |frame| ==> frame[i].y.None?) ==> DropMissing(frame) == []
    ensures (forall i :: 0 <= i < |frame| ==> frame[i].y.Some?) ==>
              |DropMissing(frame)| == |frame| &&
              forall i :: 0 <= i < |frame| ==> DropMissing(frame)[i] == Observation(frame[i].ds, frame[i].y.value)
  {
    if forall i :: 0 <= i < |frame| ==> frame[i].y.None? {
      NonePresent(frame);
    }
    if forall i :: 0 <= i < |frame| ==> frame[i].y.Some? {
      AllPresent(frame);
    }
  }

  /** Without targets, no row counts. */
  lemma {:induction false} NonePresent(frame: seq<FrameRow>)
    requires forall i :: 0 <= i < |frame| ==> frame[i].y.None?
    ensures CountPresent(frame) == 0
    decreases |frame|
  {
    if |frame| > 0 {
      NonePresent(frame[..|frame| - 1]);
    }
  }

  /** When every target is present, every row counts, in every prefix. */
  lemma {:induction false} AllPresent(frame: seq<FrameRow>)
    requires forall i :: 0 <= i < |frame| ==> frame[i].y.Some?
    ensures CountPresent(frame) == |frame|
    ensures forall i :: 0 <= i <= |frame| ==> CountPresent(frame[..i]) == i
    decreases |frame|
  {
    if |frame| > 0 {
      var init := frame[..|frame| - 1];
      AllPresent(init);
      assert forall i :: 0 <= i <= |init| ==> init[..i] == frame[..i];
      assert frame[..|frame|] == frame;
    }
  }

  /** `if len(df) < 60`: refuse rather than fit on too little history. The gate passes,
      with the rows `dropna` keeps, exactly when at least 60 rows have a target, and
      otherwise reports how many do. */
  function Gate(frame: seq<FrameRow>): (r: Result<seq<Observation>, ForecastError>)
    ensures r.Success? ==> CountPresent(frame) >= MinHistory && r.value == DropMissing(frame)
    ensures r.Failure? ==> CountPresent(frame) < MinHistory && r.error == InsufficientData(CountPresent(frame))
  {
    var obs := DropMissing(frame);
    if |obs| < MinHistory then Failure(InsufficientData(|obs|)) else Success(obs)
  }

  /** As written, no row has a target: the frame's labels are positions and the close
      column's labels are timestamps, so alignment finds nothing. */
  lemma FrameAsWrittenHasNoTarget(rows: seq<Row>)
    ensures forall k :: 0 <= k < |rows| ==> FrameAsWritten(rows)[k].y.None?
  {
  }

  /** As written, the gate refuses every series, however long. */
  lemma GateAsWrittenRefuses(rows: seq<Row>)
    ensures Gate(FrameAsWritten(rows)) == Failure(InsufficientData(0))
  {
    FrameAsWrittenHasNoTarget(rows);
    DropMissingUniform(FrameAsWritten(rows));
    NonePresent(FrameAsWritten(rows));
  }

  /** As intended, the gate passes exactly when at least 60 bars were fetched, and then
      keeps every bar's (date, close) in order. */
  lemma GateAccepts(rows: seq<Row>)
    ensures Gate(Frame(rows)).Success? <==> |rows| >= MinHistory
    ensures Gate(Frame(rows)).Failure? ==> Gate(Frame(rows)).error == InsufficientData(|rows|)
    ensures Gate(Frame(rows)).Success? ==>
              |Gate(Frame(rows)).value| == |rows| &&
              forall i :: 0 <= i < |rows| ==> Gate(Frame(rows)).value[i] == Observation(rows[i].date, rows[i].bar.close)
  {
    DropMissingUniform(Frame(rows));
    AllPresent(Frame(rows));
  }

  // ---------------------------------------------------------------- regressor continuation

  /** A row of the fit frame with its volume regressor. */
  datatype FitRow = FitRow(ds: int, y: real, volume: real)

  /** A row of the prediction frame: a date and the volume regressor for it. */
  datatype FutureRow = FutureRow(ds: int, volume: real)

  /** The fit frame: observations with each bar's volume attached by position. */
  function FitFrame(obs: seq<Observation>, rows: seq<Row>): (fit: seq<FitRow>)
    requires |obs| == |rows|
    ensures |fit| == |rows|
    ensures forall i :: 0 <= i < |fit| ==> fit[i] == FitRow(obs[i].ds, obs[i].y, rows[i].bar.volume)
  {
    seq(|obs|, i requires 0 <= i < |obs| => FitRow(obs[i].ds, obs[i].y, rows[i].bar.volume))
  }

  /** `future['volume'] = last_volume`: the column is set wholesale, history rows included. */
  function ContinueVolume(dates: seq<int>, lastVolume: real): (future: seq<FutureRow>)
    ensures |future| == |dates|
    ensures forall i :: 0 <= i < |future| ==> future[i].ds == dates[i] && future[i].volume == lastVolume
  {
    seq(|dates|, i requires 0 <= i < |dates| => FutureRow(dates[i], lastVolume))
  }

  // ---------------------------------------------------------------- display window and metrics

  /** One row of the model's output. */
  datatype Prediction = Prediction(ds: int, yhat: real, lower: real, upper: real)

  /** `s[-k:]` for k >= 1: the last k rows, or every row when there are fewer. */
  function Tail<T>(s: seq<T>, k: nat): (w: seq<T>)
    requires k >= 1
    ensures |w| == if k <= |s| then k else |s|
    ensures forall j :: 0 <= j < |w| ==> w[j] == s[|s| - |w| + j]
  {
    if k >= |s| then s else s[|s| - k..]
  }

  /** The metrics table: forecast start and end, predicted price, and the half-width
      of the interval at the final row. */
  datatype Summary = Summary(start: int, end: int, predicted: real, halfWidth: real)

  /** The metrics table with positional access to rows -k and -1 (`iloc`). */
  function Summarise(out: seq<Prediction>, k: nat): (r: Option<Summary>)
    requires k >= 1
    ensures r.Some? <==> k <= |out|
    ensures r.Some? ==>
              var w := Tail(out, k);
              && r.value.start == w[0].ds
              && r.value.end == w[|w| - 1].ds
              && r.value.predicted == w[|w| - 1].yhat
              && 2.0 * r.value.halfWidth == w[|w| - 1].upper - w[|w| - 1].lower
  {
    if k <= |out| then
      var last := out[|out| - 1];
      Some(Summary(out[|out| - k].ds, last.ds, last.yhat, (last.upper - last.lower) / 2.0))
    else
      None
  }

  /** The metrics table as written: `forecast['ds'][-k]` and `forecast[...][-1]` are label
      lookups on the output's RangeIndex. */
  function SummaryAsWritten(out: seq<Prediction>, k: nat): (r: Option<Summary>)
    requires k >= 1
  {
    var labels := RangeIndex(|out|);
    var ds := Column(labels, seq(|out|, i requires 0 <= i < |out| => out[i].ds));
    var yhat := Column(labels, seq(|out|, i requires 0 <= i < |out| => out[i].yhat));
    var lower := Column(labels, seq(|out|, i requires 0 <= i < |out| => out[i].lower));
    var upper := Column(labels, seq(|out|, i requires 0 <= i < |out| => out[i].upper));
    match (Loc(ds, Position(-(k as int))), Loc(ds, Position(-1)), Loc(yhat, Position(-1)), Loc(upper, Position(-1)), Loc(lower, Position(-1)))
    case (Some(s), Some(e), Some(p), Some(u), Some(l)) => Some(Summary(s, e, p, (u - l) / 2.0))
    case _ => None
  }

  /** As written, the metrics table raises KeyError for every model output, because no
      row of a RangeIndex is labelled -1. */
  lemma SummaryAsWrittenMissing(out: seq<Prediction>, k: nat)
    requires k >= 1
    ensures SummaryAsWritten(out, k).None?
  {
  }

  // ---------------------------------------------------------------- the forecasting tab

  datatype Report = Report(fit: seq<FitRow>, future: seq<FutureRow>, window: seq<Prediction>, summary: Summary)

  /** The forecasting tab with the corrected frame and metrics, over a non-empty series.
      `makeFuture` and `predict` stand for the model's `make_future_dataframe` and
      `predict` after `fit`. */
  function RunForecast(rows: seq<Row>, horizon: nat,
                       makeFuture: (seq<FitRow>, nat) -> seq<int>,
                       predict: (seq<FitRow>, seq<FutureRow>) -> seq<Prediction>): (r: Result<Report, ForecastError>)
    requires 1 <= horizon <= MaxHorizon
    requires |rows| > 0
    ensures |rows| < MinHistory <==> r == Failure(InsufficientData(|rows|))
    ensures r.Failure? && |rows| >= MinHistory ==> r.error == MissingRow
    ensures r.Success? ==>
              && |r.value.fit| == |rows|
              && (forall i :: 0 <= i < |rows| ==>
                    r.value.fit[i] == FitRow(rows[i].date, rows[i].bar.close, rows[i].bar.volume))
              && (forall i :: 0 <= i < |r.value.future| ==> r.value.future[i].volume == rows[|rows| - 1].bar.volume)
              && r.value.future == ContinueVolume(makeFuture(r.value.fit, horizon), rows[|rows| - 1].bar.volume)
              && r.value.window == Tail(predict(r.value.fit, r.value.future), horizon)
              && |r.value.window| == horizon
              && r.value.summary.start == r.value.window[0].ds
              && r.value.summary.end == r.value.window[horizon - 1].ds
              && r.value.summary.predicted == r.value.window[horizon - 1].yhat
              && 2.0 * r.value.summary.halfWidth == r.value.window[horizon - 1].upper - r.value.window[horizon - 1].lower
  {
    GateAccepts(rows);
    match Gate(Frame(rows))
    case Failure(e) => Failure(e)
    case Success(obs) =>
      assert |obs| == |rows| && forall i :: 0 <= i < |rows| ==> obs[i] == Observation(rows[i].date, rows[i].bar.close);
      var fit := FitFrame(obs, rows);
      var future := ContinueVolume(makeFuture(fit, horizon), rows[|rows| - 1].bar.volume);
      var out := predict(fit, future);
      match Summarise(out, horizon)
      case None => Failure(MissingRow)
      case Some(summary) => Success(Report(fit, future, Tail(out, horizon), summary))
  }

  /** With at least 60 bars and a model that returns a row for every row of the prediction
      frame, which itself extends the history by the horizon, the forecast succeeds. */
  lemma ForecastSucceeds(rows: seq<Row>, horizon: nat,
                         makeFuture: (seq<FitRow>, nat) -> seq<int>,
                         predict: (seq<FitRow>, seq<FutureRow>) -> seq<Prediction>)
    requires 1 <= horizon <= MaxHorizon
    requires |rows| >= MinHistory
    requires forall fit, h :: |makeFuture(fit, h)| == |fit| + h
    requires forall fit, future :: |predict(fit, future)| == |future|
    ensures RunForecast(rows, horizon, makeFuture, predict).Success?
  {
  }
}

=== FILE: headline.dfy ===
/** The three headline figures shown above the charts (app.py, the column block of the
    "Analyze" handler): each is read from the company overview when the overview has
    the key, and otherwise derived from the fetched series. */
module Headline {
  import opened SeriesStore
  import Stats

  datatype Metrics = Metrics(currentPrice: real, high52w: real, low52w: real)

  const PriceKey: string := "LatestPrice"
  const HighKey: string := "52WeekHigh"
  const LowKey: string := "52WeekLow"

  /** The overview fields are given already converted to numbers. Only called on a non-empty series. */
  function HeadlineMetrics(overview: map<string, real>, rows: seq<Row>): (m: Metrics)
    requires |rows| > 0
    ensures PriceKey in overview ==> m.currentPrice == overview[PriceKey]
    ensures PriceKey !in overview ==> m.currentPrice == rows[|rows| - 1].bar.close
    ensures HighKey in overview ==> m.high52w == overview[HighKey]
    ensures HighKey !in overview ==>
              && (forall i :: 0 <= i < |rows| ==> rows[i].bar.high <= m.high52w)
              && (exists i :: 0 <= i < |rows| && rows[i].bar.high == m.high52w)
    ensures LowKey in overview ==> m.low52w == overview[LowKey]
    ensures LowKey !in overview ==>
              && (forall i :: 0 <= i < |rows| ==> m.low52w <= rows[i].bar.low)
              && (exists i :: 0 <= i < |rows| && rows[i].bar.low == m.low52w)
  {
    var highs, lows := Highs(rows), Lows(rows);
    var price := if PriceKey in overview then overview[PriceKey] else rows[|rows| - 1].bar.close;
    var high := if HighKey in overview then overview[HighKey] else Stats.Max(highs);
    var low := if LowKey in overview then overview[LowKey] else Stats.Min(lows);
    Metrics(price, high, low)
  }
}

=== FILE: indicators.dfy ===
/** The indicator engine (app.py, the MA / RSI / MACD block of the "Analyze" handler):
    moving averages over 20 and 50 periods, RSI from 14-period simple rolling means of
    gains and losses, and MACD as the difference of two recursive EMAs with an EMA
    signal line. A missing pandas value (NaN) is `None`; +inf never reaches a result. */
module Indicators {
  import opened Wrappers
  import opened Stats
  import opened Rolling

  const ShortWindow: nat := 20
  const LongWindow: nat := 50
  const RsiWindow: nat := 14
  const FastSpan: nat := 12
  const SlowSpan: nat := 26
  const SignalSpan: nat := 9

  // ---------------------------------------------------------------- moving averages

  /** `MA20` and `MA50`: the closing prices are read, never changed. */
  method MovingAverages(close: seq<real>) returns (ma20: seq<Option<real>>, ma50: seq<Option<real>>)
    ensures IsRollingMean(ma20, close, ShortWindow)
    ensures IsRollingMean(ma50, close, LongWindow)
  {
    ma20 := RollingMean(close, ShortWindow);
    ma50 := RollingMean(close, LongWindow);
  }

  // ---------------------------------------------------------------- RSI

  /** `close.diff()`: the first row has no predecessor and so no value. */
  function Delta(close: seq<real>): (d: seq<Option<real>>)
    ensures |d| == |close|
    ensures |d| > 0 ==> d[0] == None
    ensures forall i :: 1 <= i < |close| ==> d[i] == Some(close[i] - close[i - 1])
  {
    seq(|close|, i requires 0 <= i < |close| => if i == 0 then None else Some(close[i] - close[i - 1]))
  }

  /** `delta.where(delta > 0, 0)`: a missing delta fails the test and is replaced by 0. */
  function Gains(close: seq<real>): (g: seq<real>)
    ensures |g| == |close|
    ensures forall i :: 0 <= i < |g| ==> g[i] >= 0.0
    ensures |g| > 0 ==> g[0] == 0.0
    ensures forall i :: 1 <= i < |close| ==> g[i] == if close[i] > close[i - 1] then close[i] - close[i - 1] else 0.0
  {
    var d := Delta(close);
    seq(|d|, i requires 0 <= i < |d| => match d[i] case Some(x) => (if x > 0.0 then x else 0.0) case None => 0.0)
  }

  /** `-delta.where(delta < 0, 0)`: the size of each fall, 0 elsewhere. */
  function Losses(close: seq<real>): (l: seq<real>)
    ensures |l| == |close|
    ensures forall i :: 0 <= i < |l| ==> l[i] >= 0.0
    ensures |l| > 0 ==> l[0] == 0.0
    ensures forall i :: 1 <= i < |close| ==> l[i] == if close[i] < close[i - 1] then close[i - 1] - close[i] else 0.0
  {
    var d := Delta(close);
    seq(|d|, i requires 0 <= i < |d| => match d[i] case Some(x) => (if x < 0.0 then -x else 0.0) case None => 0.0)
  }

  /** Gain and loss split each price change: at most one is non-zero, and their
      difference is the change itself; the first row counts as no change. */
  lemma GainLossSplit(close: seq<real>, i: nat)
    requires i < |close|
    ensures Gains(close)[i] * Losses(close)[i] == 0.0
    ensures i == 0 ==> Gains(close)[i] == 0.0 && Losses(close)[i] == 0.0
    ensures i > 0 ==> Gains(close)[i] - Losses(close)[i] == close[i] - close[i - 1]
  {
  }

  /** `100 - 100 / (1 + gain / loss)` with IEEE-754 division: a zero loss with a positive
      gain gives RS = +inf and RSI = 100, and 0 / 0 gives NaN. */
  function RsiOf(avgGain: real, avgLoss: real): (rsi: Option<real>)
    requires avgGain >= 0.0 && avgLoss >= 0.0
    ensures rsi.None? <==> avgGain == 0.0 && avgLoss == 0.0
    ensures rsi.Some? ==> 0.0 <= rsi.value <= 100.0
    ensures avgLoss == 0.0 && avgGain > 0.0 ==> rsi == Some(100.0)
    ensures avgGain == 0.0 && avgLoss > 0.0 ==> rsi == Some(0.0)
  {
    if avgLoss > 0.0 then
      var rs := avgGain / avgLoss;
      assert rs >= 0.0;
      Some(100.0 - 100.0 / (1.0 + rs))
    else if avgGain > 0.0 then
      Some(100.0)
    else
      None
  }

  /** The RSI formula agrees with the share of the gains in the total movement. */
  lemma RsiShare(avgGain: real, avgLoss: real)
    requires avgGain >= 0.0 && avgLoss >= 0.0 && avgGain + avgLoss > 0.0
    ensures RsiOf(avgGain, avgLoss) == Some(100.0 * avgGain / (avgGain + avgLoss))
  {
    var total := avgGain + avgLoss;
    if avgLoss > 0.0 {
      LossShare(avgGain, avgLoss);
      GainShare(avgGain, avgLoss);
    } else {
      assert total == avgGain;
      assert 100.0 * avgGain / total == 100.0;
    }
  }

  /** 100 / (1 + g / l) is the losses' share of the movement, in percent. */
  lemma LossShare(g: real, l: real)
    requires g >= 0.0 && l > 0.0
    ensures 100.0 / (1.0 + g / l) == 100.0 * l / (g + l)
  {
    var q := 1.0 + g / l;
    assert q == (l + g) / l;
    assert q * l == g + l;
    var r := 100.0 * l / (g + l);
    assert r * (g + l) == 100.0 * l;
    assert (r * q) * l == r * (q * l);
    Cancel(r * q, 100.0, l);
    assert 100.0 / q == r;
  }

  lemma Cancel(x: real, y: real, l: real)
    requires l > 0.0 && x * l == y * l
    ensures x == y
  {
    assert (x - y) * l == x * l - y * l;
  }

  /** The gains' share is what the losses' share leaves of 100. */
  lemma GainShare(g: real, l: real)
    requires g >= 0.0 && l > 0.0
    ensures 100.0 - 100.0 * l / (g + l) == 100.0 * g / (g + l)
  {
    var t := g + l;
    assert 100.0 * l / t + 100.0 * g / t == (100.0 * l + 100.0 * g) / t;
    assert (100.0 * l + 100.0 * g) / t == 100.0;
  }

  /** The RSI at row `i` as the rolling means define it. */
  function RsiAt(close: seq<real>, i: nat): (v: Option<real>)
    requires i < |close|
    ensures i < RsiWindow - 1 ==> v == None
    ensures v.Some? ==> 0.0 <= v.value <= 100.0
  {
    if i < RsiWindow - 1 then None
    else
      var gains := Gains(close)[i - RsiWindow + 1..i + 1];
      var losses := Losses(close)[i - RsiWindow + 1..i + 1];
      assert forall k :: 0 <= k < |gains| ==> gains[k] == Gains(close)[i - RsiWindow + 1 + k];
      assert forall k :: 0 <= k < |losses| ==> losses[k] == Losses(close)[i - RsiWindow + 1 + k];
      MeanZero(gains);
      MeanZero(losses);
      RsiOf(Mean(gains), Mean(losses))
  }

  /** At row i, the rolling means of the gains and losses give the reference RSI. */
  lemma RsiFromMeans(close: seq<real>, avgGain: seq<Option<real>>, avgLoss: seq<Option<real>>, i: nat)
    requires IsRollingMean(avgGain, Gains(close), RsiWindow)
    requires IsRollingMean(avgLoss, Losses(close), RsiWindow)
    requires i < |close|
    ensures avgGain[i].Some? <==> avgLoss[i].Some?
    ensures avgGain[i].Some? ==> avgGain[i].value >= 0.0 && avgLoss[i].value >= 0.0
    ensures RsiAt(close, i) == if avgGain[i].Some? then RsiOf(avgGain[i].value, avgLoss[i].value) else None
  {
    if i >= RsiWindow - 1 {
      var gains, losses := Gains(close), Losses(close);
      var gw, lw := gains[i - RsiWindow + 1..i + 1], losses[i - RsiWindow + 1..i + 1];
      assert forall k :: 0 <= k < |gw| ==> gw[k] == gains[i - RsiWindow + 1 + k];
      assert forall k :: 0 <= k < |lw| ==> lw[k] == losses[i - RsiWindow + 1 + k];
      MeanZero(gw);
      MeanZero(lw);
    }
  }

  /** The RSI column, computed the way the dashboard does: diff, split, rolling means, combine. */
  method Rsi(close: seq<real>) returns (rsi: seq<Option<real>>)
    ensures |rsi| == |close|
    ensures forall i :: 0 <= i < |close| ==> rsi[i] == RsiAt(close, i)
  {
    var avgGain := RollingMean(Gains(close), RsiWindow);
    var avgLoss := RollingMean(Losses(close), RsiWindow);
    rsi := [];
    var i := 0;
    while i < |close|
      invariant 0 <= i <= |close|
      invariant |rsi| == i
      invariant forall k :: 0 <= k < i ==> rsi[k] == RsiAt(close, k)
    {
      RsiFromMeans(close, avgGain, avgLoss, i);
      var v := if avgGain[i].Some? then RsiOf(avgGain[i].value, avgLoss[i].value) else None;
      rsi := rsi + [v];
      i := i + 1;
    }
  }

  /** Consecutive equal closes over (a, b] make every close in [a, b] equal to the last. */
  lemma {:induction false} FlatRun(close: seq<real>, a: nat, b: nat)
    requires a <= b < |close|
    ensures (forall k :: a < k <= b ==> close[k] == close[k - 1]) <==>
            (forall k :: a <= k <= b ==> close[k] == close[b])
    decreases b - a
  {
    if a < b {
      FlatRun(close, a + 1, b);
      if forall k :: a < k <= b ==> close[k] == close[k - 1] {
        assert close[a] == close[a + 1] == close[b];
      }
    }
  }

  /** Over rows [lo, i], gains and losses all vanish exactly when the close did not move
      from row max(0, lo - 1) to row i. */
  lemma NoMovement(close: seq<real>, lo: nat, i: nat)
    requires lo <= i < |close|
    ensures (forall k :: lo <= k <= i ==> Gains(close)[k] == 0.0 && Losses(close)[k] == 0.0) <==>
            (forall k :: 0 <= k && lo - 1 <= k <= i ==> close[k] == close[i])
  {
    var first := if lo == 0 then 0 else lo - 1;
    forall k | lo <= k <= i
      ensures (Gains(close)[k] == 0.0 && Losses(close)[k] == 0.0) <==> (k == 0 || close[k] == close[k - 1])
    {
      GainLossSplit(close, k);
    }
    FlatRun(close, first, i);
  }

  /** The gain and loss windows read by row `i` are all zero exactly when RSI has no value there. */
  lemma RsiUndefinedWhenNoMovement(close: seq<real>, i: nat)
    requires RsiWindow - 1 <= i < |close|
    ensures RsiAt(close, i).None? <==>
            forall k :: i - RsiWindow + 1 <= k <= i ==> Gains(close)[k] == 0.0 && Losses(close)[k] == 0.0
  {
    var lo := i - RsiWindow + 1;
    var gains := Gains(close)[lo..i + 1];
    var losses := Losses(close)[lo..i + 1];
    assert forall k :: 0 <= k < |gains| ==> gains[k] == Gains(close)[lo + k];
    assert forall k :: 0 <= k < |losses| ==> losses[k] == Losses(close)[lo + k];
    MeanZero(gains);
    MeanZero(losses);
    assert (forall k :: 0 <= k < |gains| ==> gains[k] == 0.0) <==> (forall k :: lo <= k <= i ==> Gains(close)[k] == 0.0) by {
      forall k | lo <= k <= i ensures Gains(close)[k] == gains[k - lo] { }
    }
    assert (forall k :: 0 <= k < |losses| ==> losses[k] == 0.0) <==> (forall k :: lo <= k <= i ==> Losses(close)[k] == 0.0) by {
      forall k | lo <= k <= i ensures Losses(close)[k] == losses[k - lo] { }
    }
  }

  /** RSI has no value at row i >= 13 exactly when the closing price did not move over
      the rows its window reads, that is rows max(0, i - 14) through i. */
  lemma RsiUndefinedWhenFlat(close: seq<real>, i: nat)
    requires RsiWindow - 1 <= i < |close|
    ensures RsiAt(close, i).None? <==> forall k :: 0 <= k && i - RsiWindow <= k <= i ==> close[k] == close[i]
  {
    RsiUndefinedWhenNoMovement(close, i);
    NoMovement(close, i - RsiWindow + 1, i);
  }

  // ---------------------------------------------------------------- EMA

  /** `ewm(span=s, adjust=False)` smoothing factor. */
  function Alpha(span: nat): (a: real)
    ensures span >= 1 ==> 0.0 < a <= 1.0
  {
    2.0 / ((span as real) + 1.0)
  }

  /** One smoothing step: y_t = (1 - alpha) * y_{t-1} + alpha * x_t. */
  function Step(prev: real, x: real, alpha: real): real
  {
    (1.0 - alpha) * prev + alpha * x
  }

  /** Recursive EMA without bias adjustment, seeded with the first value. */
  function Ema(xs: seq<real>, alpha: real): (ys: seq<real>)
    ensures |ys| == |xs|
    ensures |xs| > 0 ==> ys[0] == xs[0]
    ensures forall t :: 1 <= t < |xs| ==> ys[t] == Step(ys[t - 1], xs[t], alpha)
    decreases |xs|
  {
    if |xs| == 0 then []
    else if |xs| == 1 then [xs[0]]
    else
      var prev := Ema(xs[..|xs| - 1], alpha);
      prev + [Step(prev[|prev| - 1], xs[|xs| - 1], alpha)]
  }

  /** The seed and the recurrence determine the EMA: any series that satisfies them is it. */
  lemma EmaUnique(xs: seq<real>, alpha: real, ys: seq<real>)
    requires |ys| == |xs|
    requires |xs| > 0 ==> ys[0] == xs[0]
    requires forall t :: 1 <= t < |xs| ==> ys[t] == Step(ys[t - 1], xs[t], alpha)
    ensures ys == Ema(xs, alpha)
  {
    var e := Ema(xs, alpha);
    forall t | 0 <= t < |xs|
      ensures ys[t] == e[t]
    {
      EmaAgreesUpTo(xs, alpha, ys, t);
    }
  }

  lemma {:induction false} EmaAgreesUpTo(xs: seq<real>, alpha: real, ys: seq<real>, t: nat)
    requires t < |ys| == |xs|
    requires ys[0] == xs[0]
    requires forall s :: 1 <= s < |xs| ==> ys[s] == Step(ys[s - 1], xs[s], alpha)
    ensures ys[t] == Ema(xs, alpha)[t]
  {
    if t > 0 {
      EmaAgreesUpTo(xs, alpha, ys, t - 1);
    }
  }

  /** The EMA of a constant series is that constant. */
  lemma {:induction false} EmaConstant(xs: seq<real>, alpha: real, c: real)
    requires forall i :: 0 <= i < |xs| ==> xs[i] == c
    ensures forall t :: 0 <= t < |xs| ==> Ema(xs, alpha)[t] == c
  {
    if |xs| > 1 {
      EmaConstant(xs[..|xs| - 1], alpha, c);
      assert Ema(xs, alpha)[..|xs| - 1] == Ema(xs[..|xs| - 1], alpha);
    }
  }

  /** With a smoothing factor in [0, 1] the EMA is a running convex combination,
      so it stays within any bounds of its input. */
  lemma {:induction false} EmaWithin(xs: seq<real>, alpha: real, lo: real, hi: real)
    requires 0.0 <= alpha <= 1.0
    requires forall i :: 0 <= i < |xs| ==> lo <= xs[i] <= hi
    ensures forall t :: 0 <= t < |xs| ==> lo <= Ema(xs, alpha)[t] <= hi
  {
    if |xs| > 1 {
      var n := |xs|;
      EmaWithin(xs[..n - 1], alpha, lo, hi);
      var ys := Ema(xs, alpha);
      assert ys[..n - 1] == Ema(xs[..n - 1], alpha);
      StepWithin(ys[n - 2], xs[n - 1], alpha, lo, hi);
    }
  }

  lemma StepWithin(prev: real, x: real, alpha: real, lo: real, hi: real)
    requires 0.0 <= alpha <= 1.0
    requires lo <= prev <= hi && lo <= x <= hi
    ensures lo <= Step(prev, x, alpha) <= hi
  {
    var beta := 1.0 - alpha;
    var y := Step(prev, x, alpha);
    NonNegativeProduct(beta, prev - lo);
    NonNegativeProduct(alpha, x - lo);
    NonNegativeProduct(beta, hi - prev);
    NonNegativeProduct(alpha, hi - x);
    assert y - lo == beta * (prev - lo) + alpha * (x - lo);
    assert hi - y == beta * (hi - prev) + alpha * (hi - x);
  }

  lemma NonNegativeProduct(a: real, b: real)
    requires a >= 0.0 && b >= 0.0
    ensures a * b >= 0.0
  {
  }

  // ---------------------------------------------------------------- closed form of the EMA

  /** (1 - a)^n and friends: the n-th power of `b`. */
  function Pow(b: real, n: nat): real
  {
    if n == 0 then 1.0 else b * Pow(b, n - 1)
  }

  /** The weight of x_k in y_t once the recursion is unrolled: (1 - a)^t for the seed
      x_0, and a * (1 - a)^(t - k) for every later x_k. */
  function Coeff(alpha: real, t: nat, k: nat): real
    requires k <= t
  {
    if k == 0 then Pow(1.0 - alpha, t) else alpha * Pow(1.0 - alpha, t - k)
  }

  /** The weights of x_0 .. x_t in y_t. */
  function Coeffs(alpha: real, t: nat): (cs: seq<real>)
    ensures |cs| == t + 1
  {
    seq(t + 1, k requires 0 <= k <= t => Coeff(alpha, t, k))
  }

  /** cs[0] * xs[0] + ... + cs[n-1] * xs[n-1]. */
  function Dot(cs: seq<real>, xs: seq<real>, n: nat): real
    requires n <= |cs| && n <= |xs|
  {
    if n == 0 then 0.0 else Dot(cs, xs, n - 1) + cs[n - 1] * xs[n - 1]
  }

  /** Closed form of the EMA at row t: (1 - a)^t * x_0 + sum over k in 1..t of a * (1 - a)^(t - k) * x_k. */
  function ClosedForm(xs: seq<real>, alpha: real, t: nat): real
    requires t < |xs|
  {
    Dot(Coeffs(alpha, t), xs, t + 1)
  }

  /** Scaling every weight scales the weighted sum. */
  lemma {:induction false} DotScale(cs: seq<real>, cs': seq<real>, xs: seq<real>, b: real, n: nat)
    requires n <= |cs| && n <= |cs'| && n <= |xs|
    requires forall k :: 0 <= k < n ==> cs'[k] == b * cs[k]
    ensures Dot(cs', xs, n) == b * Dot(cs, xs, n)
  {
    if n > 0 {
      DotScale(cs, cs', xs, b, n - 1);
      var c, d := cs[n - 1], Dot(cs, xs, n - 1);
      assert cs'[n - 1] * xs[n - 1] == b * (c * xs[n - 1]);
    }
  }

  /** One row later, the weights of the rows already seen are discounted by 1 - a. */
  lemma CoeffsStep(alpha: real, t: nat)
    requires t >= 1
    ensures forall k :: 0 <= k < t ==> Coeffs(alpha, t)[k] == (1.0 - alpha) * Coeffs(alpha, t - 1)[k]
  {
  }

  /** The newest row enters with weight a. */
  lemma LastCoeff(alpha: real, t: nat)
    requires t >= 1
    ensures Coeffs(alpha, t)[t] == alpha
  {
  }

  /** A weighted sum whose old weights are discounted by 1 - a and whose new weight is a
      follows the smoothing recurrence. */
  lemma DotStep(cs: seq<real>, cs': seq<real>, xs: seq<real>, alpha: real, t: nat)
    requires |cs| == t && |cs'| == t + 1 && t < |xs|
    requires forall k :: 0 <= k < t ==> cs'[k] == (1.0 - alpha) * cs[k]
    requires cs'[t] == alpha
    ensures Dot(cs', xs, t + 1) == Step(Dot(cs, xs, t), xs[t], alpha)
  {
    DotScale(cs, cs', xs, 1.0 - alpha, t);
    var x := xs[t];
    var prev, d := Dot(cs, xs, t), Dot(cs', xs, t);
    assert Dot(cs', xs, t + 1) == d + alpha * x;
    StepOf(prev, x, alpha, d);
  }

  lemma StepOf(prev: real, x: real, alpha: real, d: real)
    requires d == (1.0 - alpha) * prev
    ensures Step(prev, x, alpha) == d + alpha * x
  {
  }

  /** The closed form obeys the smoothing recurrence. */
  lemma ClosedFormStep(xs: seq<real>, alpha: real, t: nat)
    requires 1 <= t < |xs|
    ensures ClosedForm(xs, alpha, t) == Step(ClosedForm(xs, alpha, t - 1), xs[t], alpha)
  {
    CoeffsStep(alpha, t);
    LastCoeff(alpha, t);
    DotStep(Coeffs(alpha, t - 1), Coeffs(alpha, t), xs, alpha, t);
  }

  /** The recursive EMA equals its closed form at every row. */
  lemma {:induction false} EmaClosedForm(xs: seq<real>, alpha: real, t: nat)
    requires t < |xs|
    ensures Ema(xs, alpha)[t] == ClosedForm(xs, alpha, t)
  {
    if t == 0 {
      var cs := Coeffs(alpha, 0);
      assert cs[0] == 1.0;
      assert Dot(cs, xs, 1) == Dot(cs, xs, 0) + cs[0] * xs[0];
    } else {
      EmaClosedForm(xs, alpha, t - 1);
      ClosedFormStep(xs, alpha, t);
    }
  }

  // ---------------------------------------------------------------- MACD

  /** The MACD line: EMA(12) minus EMA(26) of the close. */
  function Macd(close: seq<real>): (m: seq<real>)
    ensures |m| == |close|
    ensures forall i :: 0 <= i < |close| ==> m[i] == Ema(close, Alpha(FastSpan))[i] - Ema(close, Alpha(SlowSpan))[i]
  {
    var fast, slow := Ema(close, Alpha(FastSpan)), Ema(close, Alpha(SlowSpan));
    seq(|close|, i requires 0 <= i < |close| => fast[i] - slow[i])
  }

  /** The signal line: EMA(9) of the MACD line. */
  function SignalLine(close: seq<real>): (s: seq<real>)
    ensures |s| == |close|
    ensures |close| > 0 ==> s[0] == Macd(close)[0]
    ensures forall t :: 1 <= t < |close| ==> s[t] == Step(s[t - 1], Macd(close)[t], Alpha(SignalSpan))
  {
    Ema(Macd(close), Alpha(SignalSpan))
  }

  /** A flat price has no trend: MACD and its signal line are zero throughout. */
  lemma MacdFlat(close: seq<real>, c: real)
    requires forall i :: 0 <= i < |close| ==> close[i] == c
    ensures forall t :: 0 <= t < |close| ==> Macd(close)[t] == 0.0 && SignalLine(close)[t] == 0.0
  {
    EmaConstant(close, Alpha(FastSpan), c);
    EmaConstant(close, Alpha(SlowSpan), c);
    EmaConstant(Macd(close), Alpha(SignalSpan), 0.0);
  }

  // ---------------------------------------------------------------- the enabled indicators

  /** The derived columns; a column is absent when its indicator is switched off. */
  datatype Columns = Columns(
    ma20: Option<seq<Option<real>>>,
    ma50: Option<seq<Option<real>>>,
    rsi: Option<seq<Option<real>>>,
    macd: Option<seq<real>>,
    signal: Option<seq<real>>)

  /** Each enabled indicator is computed from the close alone, independently of the others. */
  method Enrich(close: seq<real>, showMa: bool, showRsi: bool, showMacd: bool) returns (c: Columns)
    ensures c.ma20.Some? <==> showMa
    ensures c.ma50.Some? <==> showMa
    ensures c.rsi.Some? <==> showRsi
    ensures c.macd.Some? <==> showMacd
    ensures c.signal.Some? <==> showMacd
    ensures showMa ==> IsRollingMean(c.ma20.value, close, ShortWindow) && IsRollingMean(c.ma50.value, close, LongWindow)
    ensures showRsi ==> |c.rsi.value| == |close| && forall i :: 0 <= i < |close| ==> c.rsi.value[i] == RsiAt(close, i)
    ensures showMacd ==> c.macd.value == Macd(close) && c.signal.value == SignalLine(close)
  {
    c := Columns(None, None, None, None, None);
    if showMa {
      var ma20, ma50 := MovingAverages(close);
      c := c.(ma20 := Some(ma20), ma50 := Some(ma50));
    }
    if showRsi {
      var rsi := Rsi(close);
      c := c.(rsi := Some(rsi));
    }
    if showMacd {
      c := c.(macd := Some(Macd(close)), signal := Some(SignalLine(close)));
    }
  }
}

=== FILE: rolling.dfy ===
/** pandas `Series.rolling(window=w).mean()` with the default `min_periods = w`, on a
    series without missing values: no value until a full window is available, then
    the mean of the trailing `w` elements. */
module Rolling {
  import opened Wrappers
  import opened Stats

  ghost predicate IsRollingMean(r: seq<Option<real>>, xs: seq<real>, w: nat)
  {
    && w >= 1
    && |r| == |xs|
    && (forall i :: 0 <= i < |r| && i < w - 1 ==> r[i] == None)
    && (forall i :: w - 1 <= i < |r| ==> r[i] == Some(Mean(xs[i - w + 1..i + 1])))
  }

  /** The rolling mean, kept as a running sum of the current window. */
  method RollingMean(xs: seq<real>, w: nat) returns (r: seq<Option<real>>)
    requires w >= 1
    ensures IsRollingMean(r, xs, w)
  {
    r := [];
    var sum := 0.0;
    var i := 0;
    while i < |xs|
      invariant 0 <= i <= |xs|
      invariant |r| == i
      invariant sum == Sum(xs[if i < w then 0 else i - w..i])
      invariant forall k :: 0 <= k < i && k < w - 1 ==> r[k] == None
      invariant forall k :: w - 1 <= k < i ==> r[k] == Some(Mean(xs[k - w + 1..k + 1]))
    {
      var lo := if i < w then 0 else i - w;
      assert xs[lo..i + 1][..i - lo] == xs[lo..i];
      sum := sum + xs[i];
      if i >= w {
        SumFront(xs[i - w..i + 1]);
        assert xs[i - w..i + 1][1..] == xs[i - w + 1..i + 1];
        sum := sum - xs[i - w];
      }
      if i >= w - 1 {
        r := r + [Some(sum / (w as real))];
      } else {
        r := r + [None];
      }
      i := i + 1;
    }
  }

  /** A moving average never leaves the range of the series it averages. */
  lemma RollingMeanWithin(r: seq<Option<real>>, xs: seq<real>, w: nat, lo: real, hi: real)
    requires IsRollingMean(r, xs, w)
    requires forall i :: 0 <= i < |xs| ==> lo <= xs[i] <= hi
    ensures forall i :: 0 <= i < |r| && r[i].Some? ==> lo <= r[i].value <= hi
  {
    forall i | 0 <= i < |r| && r[i].Some?
      ensures lo <= r[i].value <= hi
    {
      var window := xs[i - w + 1..i + 1];
      assert forall k :: 0 <= k < |window| ==> window[k] == xs[i - w + 1 + k];
      MeanBounds(window, lo, hi);
    }
  }
}

=== FILE: series_store.dfy ===
/** The series store: turning a decoded provider response into the ascending,
    date-windowed bar sequence every later stage reads (app.py, the
    `get_daily_data` / `get_weekly_data` / `get_monthly_data` methods and the
    interval dispatch of `fetch_stock_data`). Dates are day ordinals. */
module SeriesStore {
  import opened Wrappers

  /** One OHLCV bar; the provider's five fields are renamed by position. */
  datatype Bar = Bar(open: real, high: real, low: real, close: real, volume: real)

  /** A bar together with its date. */
  datatype Row = Row(date: int, bar: Bar)

  /** A value at the top level of the decoded response: a message string or a date-keyed table. */
  datatype Value = Text(text: string) | Table(bars: map<int, Bar>)

  type Payload = map<string, Value>

  datatype FetchError =
    | ProviderError(detail: Value)   // the response carried "Error Message"
    | NoData                         // the response lacks the series key
    | MalformedSeries                // the series is not a non-empty table of bars
    | InvalidInterval(interval: string)
    | IncomparableBound              // a date bound that a datetime64 index cannot be ordered against

  const ErrorKey: string := "Error Message"

  /** The top-level key under which the provider stores the series for an interval. */
  function SeriesKey(interval: string): (key: Option<string>)
    ensures key.Some? <==> interval == "1d" || interval == "1wk" || interval == "1mo"
    ensures key.Some? ==> key.value != ErrorKey
  {
    if interval == "1d" then Some("Time Series (Daily)")
    else if interval == "1wk" then Some("Weekly Time Series")
    else if interval == "1mo" then Some("Monthly Time Series")
    else None
  }

  predicate StrictlyIncreasing(xs: seq<int>)
  {
    forall i, j :: 0 <= i < j < |xs| ==> xs[i] < xs[j]
  }

  function Dates(rows: seq<Row>): (ds: seq<int>)
    ensures |ds| == |rows|
    ensures forall i :: 0 <= i < |rows| ==> ds[i] == rows[i].date
  {
    seq(|rows|, i requires 0 <= i < |rows| => rows[i].date)
  }

  function Closes(rows: seq<Row>): (xs: seq<real>)
    ensures |xs| == |rows|
    ensures forall i :: 0 <= i < |rows| ==> xs[i] == rows[i].bar.close
  {
    seq(|rows|, i requires 0 <= i < |rows| => rows[i].bar.close)
  }

  function Highs(rows: seq<Row>): (xs: seq<real>)
    ensures |xs| == |rows|
    ensures forall i :: 0 <= i < |rows| ==> xs[i] == rows[i].bar.high
  {
    seq(|rows|, i requires 0 <= i < |rows| => rows[i].bar.high)
  }

  function Lows(rows: seq<Row>): (xs: seq<real>)
    ensures |xs| == |rows|
    ensures forall i :: 0 <= i < |rows| ==> xs[i] == rows[i].bar.low
  {
    seq(|rows|, i requires 0 <= i < |rows| => rows[i].bar.low)
  }

  /** `x` is one of the elements of `xs`. */
  ghost predicate Occurs(x: int, xs: seq<int>)
  {
    exists j :: 0 <= j < |xs| && xs[j] == x
  }

  /** Every element of `a` occurs somewhere in `b`. */
  ghost predicate Covers(a: seq<int>, b: seq<int>)
  {
    forall i :: 0 <= i < |a| ==> Occurs(a[i], b)
  }

  /** `rows` is exactly the part of `bars` dated within [start, end], ascending by date. */
  ghost predicate IsWindow(rows: seq<Row>, bars: map<int, Bar>, start: int, end: int)
  {
    && StrictlyIncreasing(Dates(rows))
    && (forall i :: 0 <= i < |rows| ==>
          start <= rows[i].date <= end && rows[i].date in bars && rows[i].bar == bars[rows[i].date])
    && (forall d :: d in bars && start <= d <= end ==> Occurs(d, Dates(rows)))
  }

  /** The filter to [start, end] followed by the ascending sort, as a scan of the window's dates. */
  function Window(bars: map<int, Bar>, start: int, end: int): (rows: seq<Row>)
    ensures IsWindow(rows, bars, start, end)
    decreases end - start
  {
    if end < start then []
    else
      var earlier := Window(bars, start, end - 1);
      var rows := if end in bars then earlier + [Row(end, bars[end])] else earlier;
      WindowExtends(bars, start, end, earlier, rows);
      rows
  }

  /** Extending the window of [start, end - 1] by the bar dated `end`, if any, gives the
      window of [start, end]. */
  lemma WindowExtends(bars: map<int, Bar>, start: int, end: int, earlier: seq<Row>, rows: seq<Row>)
    requires start <= end
    requires IsWindow(earlier, bars, start, end - 1)
    requires rows == if end in bars then earlier + [Row(end, bars[end])] else earlier
    ensures IsWindow(rows, bars, start, end)
  {
    forall d | d in bars && start <= d <= end
      ensures Occurs(d, Dates(rows))
    {
      if d == end {
        assert Dates(rows)[|earlier|] == d;
      } else {
        assert Occurs(d, Dates(earlier));
        var i :| 0 <= i < |earlier| && Dates(earlier)[i] == d;
        assert Dates(rows)[i] == d;
      }
    }
  }

  lemma CoversNonEmpty(a: seq<int>, b: seq<int>)
    requires Covers(a, b) && |a| > 0
    ensures |b| > 0
  {
    assert Occurs(a[0], b);
  }

  lemma HeadsEqual(a: seq<int>, b: seq<int>)
    requires StrictlyIncreasing(a) && StrictlyIncreasing(b)
    requires Covers(a, b) && Covers(b, a)
    requires |a| > 0 && |b| > 0
    ensures a[0] == b[0]
  {
  }

  lemma TailCovers(a: seq<int>, b: seq<int>)
    requires StrictlyIncreasing(a)
    requires Covers(a, b)
    requires |a| > 0 && |b| > 0 && a[0] == b[0]
    ensures Covers(a[1..], b[1..])
  {
  }

  lemma IncreasingTail(a: seq<int>)
    requires StrictlyIncreasing(a) && |a| > 0
    ensures StrictlyIncreasing(a[1..])
  {
  }

  /** Two ascending date sequences that cover each other are the same sequence. */
  lemma {:induction false} IncreasingUnique(a: seq<int>, b: seq<int>)
    requires StrictlyIncreasing(a) && StrictlyIncreasing(b)
    requires Covers(a, b) && Covers(b, a)
    ensures a == b
  {
    if |a| > 0 {
      CoversNonEmpty(a, b);
      HeadsEqual(a, b);
      TailCovers(a, b);
      TailCovers(b, a);
      IncreasingTail(a);
      IncreasingTail(b);
      IncreasingUnique(a[1..], b[1..]);
      assert a == [a[0]] + a[1..];
      assert b == [b[0]] + b[1..];
    } else if |b| > 0 {
      CoversNonEmpty(b, a);
    }
  }

  /** The window is determined by the table and the bounds: no other ordering or selection qualifies. */
  lemma WindowUnique(rows1: seq<Row>, rows2: seq<Row>, bars: map<int, Bar>, start: int, end: int)
    requires IsWindow(rows1, bars, start, end)
    requires IsWindow(rows2, bars, start, end)
    ensures rows1 == rows2
  {
    var d1, d2 := Dates(rows1), Dates(rows2);
    forall i | 0 <= i < |d1|
      ensures Occurs(d1[i], d2)
    {
      assert rows1[i].date in bars;
    }
    forall i | 0 <= i < |d2|
      ensures Occurs(d2[i], d1)
    {
      assert rows2[i].date in bars;
    }
    IncreasingUnique(d1, d2);
    forall i | 0 <= i < |rows1|
      ensures rows1[i] == rows2[i]
    {
      assert d1[i] == d2[i];
    }
  }

  /** The response carries no error and a non-empty table under `key`. */
  predicate WellFormed(payload: Payload, key: string)
  {
    && ErrorKey !in payload
    && key in payload
    && payload[key].Table?
    && |payload[key].bars| > 0
  }

  /** One `get_*_data` call after the request: reject, then filter and sort. */
  function Normalise(payload: Payload, key: string, start: int, end: int): (r: Result<seq<Row>, FetchError>)
    ensures ErrorKey in payload ==> r == Failure(ProviderError(payload[ErrorKey]))
    ensures ErrorKey !in payload && key !in payload ==> r == Failure(NoData)
    ensures r.Success? <==> WellFormed(payload, key)
    ensures r.Success? ==> IsWindow(r.value, payload[key].bars, start, end)
  {
    if ErrorKey in payload then Failure(ProviderError(payload[ErrorKey]))
    else if key !in payload then Failure(NoData)
    else match payload[key]
      case Text(_) => Failure(MalformedSeries)
      case Table(bars) =>
        // An empty table gives a frame with no columns, and renaming it to five columns raises.
        if |bars| == 0 then Failure(MalformedSeries)
        else Success(Window(bars, start, end))
  }

  /** Interval dispatch with its failure kept visible. */
  function Load(payload: Payload, interval: string, start: int, end: int): (r: Result<seq<Row>, FetchError>)
    ensures SeriesKey(interval).None? ==> r == Failure(InvalidInterval(interval))
    ensures r.Success? <==> SeriesKey(interval).Some? && WellFormed(payload, SeriesKey(interval).value)
    ensures r.Success? ==> IsWindow(r.value, payload[SeriesKey(interval).value].bars, start, end)
  {
    match SeriesKey(interval)
    case None => Failure(InvalidInterval(interval))
    case Some(key) => Normalise(payload, key, start, end)
  }

  /** `fetch_stock_data`: every failure is swallowed into an empty series. */
  function Fetch(payload: Payload, interval: string, start: int, end: int): (rows: seq<Row>)
    ensures SeriesKey(interval).None? ==> rows == []
    ensures ErrorKey in payload ==> rows == []
    ensures SeriesKey(interval).Some? && !WellFormed(payload, SeriesKey(interval).value) ==> rows == []
    ensures SeriesKey(interval).Some? && WellFormed(payload, SeriesKey(interval).value) ==>
              IsWindow(rows, payload[SeriesKey(interval).value].bars, start, end)
  {
    match Load(payload, interval, start, end)
    case Success(rows) => rows
    case Failure(_) => []
  }

  // ---------------------------------------------------------------- date bounds as passed by the dashboard

  /** A bound of the date filter: a calendar day (`datetime.date`, which is what the
      dashboard's date pickers return) or a timestamp. Both carry the day's ordinal. */
  datatype Bound = Day(day: int) | Instant(day: int)

  /** `get_*_data` with the bounds as passed. A datetime64 index orders only against
      timestamps: `df.index >= start_date` with a calendar day raises TypeError, after the
      response checks and the column rename have run. With timestamp bounds the result is
      the window. */
  function NormaliseAsWritten(payload: Payload, key: string, start: Bound, end: Bound): (r: Result<seq<Row>, FetchError>)
    ensures !WellFormed(payload, key) ==> r == Normalise(payload, key, start.day, end.day)
    ensures WellFormed(payload, key) && (start.Day? || end.Day?) ==> r == Failure(IncomparableBound)
    ensures r.Success? <==> WellFormed(payload, key) && start.Instant? && end.Instant?
    ensures r.Success? ==> IsWindow(r.value, payload[key].bars, start.day, end.day)
  {
    match Normalise(payload, key, start.day, end.day)
    case Failure(e) => Failure(e)
    case Success(rows) => if start.Day? || end.Day? then Failure(IncomparableBound) else Success(rows)
  }

  /** `fetch_stock_data` with the bounds as passed: dispatch, then swallow every failure. */
  function FetchAsWritten(payload: Payload, interval: string, start: Bound, end: Bound): (rows: seq<Row>)
    ensures SeriesKey(interval).None? ==> rows == []
    ensures SeriesKey(interval).Some? && WellFormed(payload, SeriesKey(interval).value) && start.Instant? && end.Instant? ==>
              IsWindow(rows, payload[SeriesKey(interval).value].bars, start.day, end.day)
  {
    match SeriesKey(interval)
    case None => []
    case Some(key) =>
      match NormaliseAsWritten(payload, key, start, end)
      case Success(rows) => rows
      case Failure(_) => []
  }

  /** As written, the date pickers' calendar days make every fetch fail, and the failure
      is swallowed into the empty series, whatever the provider returned. */
  lemma FetchAsWrittenEmptyForDays(payload: Payload, interval: string, start: int, end: int)
    ensures FetchAsWritten(payload, interval, Day(start), Day(end)) == []
  {
  }

  /** With timestamp bounds, the fetch as written is the corrected fetch. */
  lemma FetchWithInstants(payload: Payload, interval: string, start: int, end: int)
    ensures FetchAsWritten(payload, interval, Instant(start), Instant(end)) == Fetch(payload, interval, start, end)
  {
  }
}

=== FILE: stats.dfy ===
/** Exact-real aggregates over sequences: the sums, means, maxima and minima that
    pandas computes in floating point. */
module Stats {

  /** Sum of a sequence, folded from its last element so that appending adds one term. */
  function Sum(xs: seq<real>): real
    decreases |xs|
  {
    if |xs| == 0 then 0.0 else Sum(xs[..|xs| - 1]) + xs[|xs| - 1]
  }

  /** Arithmetic mean of a non-empty sequence. */
  function Mean(xs: seq<real>): real
    requires |xs| > 0
  {
    Sum(xs) / (|xs| as real)
  }

  /** Dropping the first element subtracts it from the sum. */
  lemma {:induction false} SumFront(xs: seq<real>)
    requires |xs| > 0
    ensures Sum(xs) == xs[0] + Sum(xs[1..])
  {
    var n := |xs|;
    if n == 1 {
      assert xs[..0] == [];
      assert xs[1..] == [];
    } else {
      SumFront(xs[..n - 1]);
      assert xs[..n - 1][1..] == xs[1..][..n - 2];
    }
  }

  /** A sum of terms in [lo, hi] lies in [n * lo, n * hi]. */
  lemma {:induction false} SumBounds(xs: seq<real>, lo: real, hi: real)
    requires forall i :: 0 <= i < |xs| ==> lo <= xs[i] <= hi
    ensures (|xs| as real) * lo <= Sum(xs) <= (|xs| as real) * hi
  {
    if |xs| > 0 {
      var n := |xs|;
      var init := xs[..n - 1];
      assert forall i :: 0 <= i < n - 1 ==> init[i] == xs[i];
      SumBounds(init, lo, hi);
      assert Sum(xs) == Sum(init) + xs[n - 1];
      ScaledCount(n, lo);
      ScaledCount(n, hi);
    }
  }

  /** n * c == (n - 1) * c + c. */
  lemma ScaledCount(n: nat, c: real)
    requires n > 0
    ensures (n as real) * c == ((n - 1) as real) * c + c
  {
  }

  /** The mean of terms in [lo, hi] lies in [lo, hi]. */
  lemma MeanBounds(xs: seq<real>, lo: real, hi: real)
    requires |xs| > 0
    requires forall i :: 0 <= i < |xs| ==> lo <= xs[i] <= hi
    ensures lo <= Mean(xs) <= hi
  {
    SumBounds(xs, lo, hi);
    var n := |xs| as real;
    assert Mean(xs) * n == Sum(xs);
  }

  /** A sum of non-negative terms is zero exactly when every term is zero. */
  lemma {:induction false} SumZero(xs: seq<real>)
    requires forall i :: 0 <= i < |xs| ==> xs[i] >= 0.0
    ensures Sum(xs) >= 0.0
    ensures Sum(xs) == 0.0 <==> forall i :: 0 <= i < |xs| ==> xs[i] == 0.0
  {
    if |xs| > 0 {
      var n := |xs|;
      SumZero(xs[..n - 1]);
      assert forall i :: 0 <= i < n - 1 ==> xs[..n - 1][i] == xs[i];
    }
  }

  /** A mean of non-negative terms is non-negative, and zero exactly when every term is zero. */
  lemma MeanZero(xs: seq<real>)
    requires |xs| > 0
    requires forall i :: 0 <= i < |xs| ==> xs[i] >= 0.0
    ensures Mean(xs) >= 0.0
    ensures Mean(xs) == 0.0 <==> forall i :: 0 <= i < |xs| ==> xs[i] == 0.0
  {
    SumZero(xs);
  }

  /** Largest element, as pandas `Series.max()` on a series without NaN. */
  function Max(xs: seq<real>): (m: real)
    requires |xs| > 0
    ensures forall i :: 0 <= i < |xs| ==> xs[i] <= m
    ensures m in xs
    decreases |xs|
  {
    if |xs| == 1 then xs[0]
    else
      var rest := Max(xs[..|xs| - 1]);
      if xs[|xs| - 1] > rest then xs[|xs| - 1] else rest
  }

  /** Smallest element, as pandas `Series.min()` on a series without NaN. */
  function Min(xs: seq<real>): (m: real)
    requires |xs| > 0
    ensures forall i :: 0 <= i < |xs| ==> m <= xs[i]
    ensures m in xs
    decreases |xs|
  {
    if |xs| == 1 then xs[0]
    else
      var rest := Min(xs[..|xs| - 1]);
      if xs[|xs| - 1] < rest then xs[|xs| - 1] else rest
  }
}

=== FILE: wrappers.dfy ===
/** Failure-compatible wrappers used throughout the model: `Option` stands for a
    pandas value that may be missing (NaN), `Result` for an operation that may raise. */
module Wrappers {

  datatype Option<T> = None | Some(value: T)

  datatype Result<T, E> = Success(value: T) | Failure(error: E)
}
